=== FILE: README.md ===
# Task Manager API — a Dafny model of its ownership and authentication core

This project models the core of a NestJS task-tracking API. Users register
and log in to receive a JWT. The task service creates, lists, reads,
re-statuses and deletes the tasks of the user it is given, each operation
taking the caller as the service is meant to be called. The tasks controller
as written never passes that caller; see "Left out". The model covers the following:

- the two tables (`Task`, `User`) as immutable datatypes held in finite maps;
- the task service's five operations as pure functions of the task table: `getAll` and `getById` only read it, while `create`, `updateStatus` and `delete` return the new table together with a value or a `NotFound`/`Forbidden` error (`create` never fails);
- the credential store (`createUser`, `findByUsername`);
- the auth service (`register`, `login`);
- the passport JWT strategy (the constructor's secret check, and `validate`);
- the class-validator rules on the two request bodies, as run by the global `ValidationPipe` with `whitelist` and `forbidNonWhitelisted`.

bcrypt and JWT signing are foreign code, so they are parameters. A `Hasher`
holds a `hash` and a `compare` function value. A `Signer` maps a claim to a
token string. The one fact assumed of bcrypt, that a password matches its own
digest, is the predicate `AuthService.Sound`. Only the lemmas that need it
require it.

Primary keys are uuids generated by the database. Here they are opaque natural
numbers handed out by a per-table counter (`nextId`). Each store has an
invariant `Valid`. For tasks, the key of a row is its id, and that id is below
the counter. For users, the key of a row is its username, its id is below the
counter, and ids are pairwise distinct. Fresh ids are therefore unique.

Operations that change a table return `Step(state, result)`, so "a failed call
leaves the table unchanged" is a real postcondition. The read-only operations
(`getAll`, `getById`, `findByUsername`, `login`, `validate`) return no table, so
they cannot change one.

Behaviour of the code worth noting:

- `register` returns `{message: 'User created', username}`.
- `login` returns `{accessToken}`.
- The owner column is `userId`.
- The startup check rejects an empty `JWT_SECRET` as well as a missing one, because it tests `!jwtSecret`.
- The six-character password rule sits on the DTO that both register and login use, so it also applies to login.

## Model

| member | source | states |
|---|---|---|
| `TaskEntity.StatusIsOneOfThree` | src/tasks/task.entity.ts:4-8 | a status is one of exactly three values, OPEN, IN_PROGRESS and DONE |
| `TaskEntity.ParseStatusName` | src/tasks/task.entity.ts:4-8 | parsing the stored string of a status gives that status back |
| `TaskEntity.StatusNameOfParse` | src/tasks/task.entity.ts:5-7 | any string that parses is the stored name of its status; exactly the three names parse |
| `TaskEntity.StatusNameInjective` | src/tasks/task.entity.ts:5-7 | distinct statuses are stored as distinct strings |
| `Validation.Violations` | src/main.ts:8-14 | the pipe reports no violation exactly when the body declares no property outside the DTO and every declared property meets every decorator on it; each violation it reports names a property of the DTO or of the body |
| `Validation.TextLength` | src/tasks/dto/create-task.dto.ts:8 | the length the length decorators measure is at most the number of characters, and equals it exactly when the string holds no presentation selector (U+FE0E, U+FE0F) |
| `CreateTaskDto.Validate` | src/tasks/dto/create-task.dto.ts:4-14 | a body is accepted iff the title is a non-empty string of at most 100 characters as `TextLength` counts them, the description is a non-empty string and no other property is present; the DTO then carries exactly those strings; otherwise a non-empty `ValidationError` |
| `CreateTaskDto.TitleLengthBoundary` | src/tasks/dto/create-task.dto.ts:8 | for a title without presentation selectors, 100 characters are accepted and 101 are not |
| `CreateTaskDto.TitleSelectorNotCounted` | src/tasks/dto/create-task.dto.ts:8 | a trailing U+FE0F does not count toward the 100-character limit |
| `AuthDto.Validate` | src/auth/dto/auth.dto.ts:3-10 | a body is accepted iff the username is a non-empty string, the password is a string of at least 6 characters as `TextLength` counts them and no other property is present; otherwise a non-empty `ValidationError` |
| `AuthDto.PasswordLengthBoundary` | src/auth/dto/auth.dto.ts:9 | for a password without presentation selectors, 6 characters are accepted and 5 are not |
| `TasksService.GetAll` | src/tasks/tasks.service.ts:16-18 | the list holds a task iff it is stored and its `userId` is the caller's id (none missing, none foreign), i.e. its elements are exactly the caller's `tasks` relation `Owned`; in a valid table no row appears twice |
| `TasksService.GetById` | src/tasks/tasks.service.ts:21-26 | a missing id gives `NotFound(id)` whoever asks; an existing row of another user gives `Forbidden`; success exactly when the row exists and is the caller's, returning the stored row unchanged |
| `TasksService.Create` | src/tasks/tasks.service.ts:29-38 | always succeeds; the new row is OPEN, which the service sets itself, owned by the caller and carries the given title and description; the table gains exactly that row under a key not used before; validity is kept |
| `TasksService.UpdateStatus` | src/tasks/tasks.service.ts:40-44 | fails exactly as `getById` does and then leaves the table unchanged; on success only that row changes, to any requested status, with no transition restriction |
| `TasksService.Delete` | src/tasks/tasks.service.ts:46-49 | fails exactly as `getById` does and then leaves the table unchanged; on success exactly that row is removed and every other row is kept |
| `TaskProperties.CreateThenGet` | src/tasks/tasks.service.ts:21-37 | a task just created reads back to its creator as OPEN with the given title and description, and the creator's tasks grow by exactly that task |
| `TaskProperties.UpdateThenGet` | src/tasks/tasks.service.ts:21-44 | after a status update, reading the row back shows exactly the new status |
| `TaskProperties.DeleteThenGet` | src/tasks/tasks.service.ts:21-49 | after a delete, reading the id gives `NotFound` for every caller |
| `TaskProperties.MissingIsNotFound` | src/tasks/tasks.service.ts:22-23 | an absent id gives `NotFound` from get, update and delete, for any caller, and changes nothing |
| `TaskProperties.ForeignIsForbidden` | src/tasks/tasks.service.ts:22-24 | another user's row gives `Forbidden` from get, update and delete, and changes nothing |
| `TaskProperties.ApplyIsolation` | src/tasks/tasks.service.ts:16-49 | in a valid table, one call by a user returns only that user's rows, keeps the table valid and leaves every other user's set of tasks unchanged |
| `TaskProperties.RunIsolation` | src/tasks/tasks.service.ts:16-49 | starting from a valid table, any sequence of calls by one user leaves every other user's set of tasks unchanged and the table valid |
| `UsersService.FindByUsername` | src/users/users.service.ts:23-25 | in a valid table, a user is found iff some row has that username, and the row found has it |
| `UsersService.CreateUser` | src/users/users.service.ts:14-21 | a taken username gives `Conflict('Username already exists')` with the table unchanged; otherwise exactly one row is added, with that username and password `hash(password)`, under an id no existing user has; validity is kept |
| `UsersService.UsernamesUnique` | src/users/user.entity.ts:9-10 | in a valid table two users with the same username are the same row |
| `UsersService.CreateThenFind` | src/users/users.service.ts:14-25 | after a successful `createUser(u, p)`, `findByUsername(u)` returns the created user |
| `UsersService.CreateUserFrame` | src/users/users.service.ts:15-20 | `createUser` leaves every other username's lookup unchanged, and a failed call leaves the table unchanged |
| `AuthService.Register` | src/auth/auth.service.ts:13-16 | a taken username propagates `Conflict` with the table unchanged; otherwise the response is `{message: 'User created', username}` and the table gains the user with the hashed password |
| `AuthService.Login` | src/auth/auth.service.ts:18-27 | an unknown username and a failed password compare both give `Unauthorized('Invalid credentials')`; success exactly when the user exists and the compare holds; the token is signed over the stored username, which equals the one given |
| `AuthService.LoginFailuresIndistinguishable` | src/auth/auth.service.ts:19-23 | any two failed logins, whatever their usernames and passwords, return the identical value (timing is not covered) |
| `AuthService.RegisterTakenIsConflict` | src/auth/auth.service.ts:13-15 | once a username is registered, registering it again with any password gives `Conflict` and stores nothing |
| `AuthService.RegisterThenLogin` | src/auth/auth.service.ts:13-27 | for a bcrypt whose compare accepts a password against its own hash, register then login with the same credentials returns a token signed over that username |
| `JwtStrategy.NewStrategy` | src/auth/jwt.strategy.ts:14-21 | construction fails with 'JWT_SECRET is missing in config' iff the secret is absent or empty; otherwise the strategy checks against that secret |
| `JwtStrategy.NewStrategyBlankSecrets` | src/auth/jwt.strategy.ts:15-16 | an absent and an empty secret abort startup with the same error; any non-empty secret is kept as is |
| `JwtStrategy.Validate` | src/auth/jwt.strategy.ts:23-27 | succeeds iff a user has the payload's username, returning that stored user; otherwise `Unauthorized` with the default message |
| `JwtStrategy.LoginThenValidate` | src/auth/jwt.strategy.ts:23-26 | the claim a successful login signs resolves back to the user who logged in |
| `Boundary.RegisterRoute` | src/main.ts:8-14 | a register body that fails validation gives `ValidationError` with the user table unchanged; a valid one reaches `register` with exactly its two strings |
| `Boundary.LoginRoute` | src/auth/auth.controller.ts:17-20 | a login body that fails validation gives `ValidationError`; a valid one reaches `login` with exactly its two strings |
| `Boundary.CreateTaskRoute` | src/tasks/dto/create-task.dto.ts:4-14 | a task body that fails validation gives `ValidationError` with the task table unchanged; a valid one reaches `create` with exactly its title and description |
| `Scenario.Walkthrough` | src/auth/auth.service.ts:13-27 | from empty tables: alice registers, logs in, creates an OPEN task and marks it DONE; bob registers and logs in; bob reading alice's task gets `Forbidden` |

## Left out

- Database failures (store unreachable, a save rejected) are not modelled. Neither is the Postgres error on an id string that is not a uuid. Ids are abstract here and every store call succeeds.
- The check-then-insert race in `createUser` and the storage-level `UNIQUE` constraint that backs it are concurrency concerns. The model is sequential, so only the application-level check is proved.
- bcrypt salting, cost factor and constant-time comparison are not modelled. `hash` and `compare` are opaque function values, and the salt is folded into the `hash` value passed to a call.
- JWT signature checking, expiry and Bearer-header extraction happen in passport-jwt before `validate` runs. `validate` receives an already-verified payload, and `sign` is an opaque function value.
- `TasksService.GetAll`: the list's order is not stated, because the query has no ORDER BY. The model collects rows in an unspecified order.
- `MaxLength` and `MinLength` use validator.js `isLength`. It counts a surrogate pair once and leaves out U+FE0E and U+FE0F, and `Validation.TextLength` counts the same way. A JavaScript string can also hold a lone surrogate, which a Dafny string cannot, so such bodies are not modelled.
- The texts of validation messages, the `transform: true` option and the HTTP exception filter / response interceptor (status codes, timestamps, envelopes) are formatting and clock I/O.
- The tasks controller, the auth controller's routing, the `GetUser` decorator, `main.ts` bootstrap and `app.module.ts` are routing and dependency-injection glue. The tasks controller calls the service without a user argument, so it does not match the service. TypeScript rejects those calls for too few arguments (TS2554), so the project as written does not type-check. The model follows the service, called with the caller's user. In the JavaScript emitted despite those errors, `user` is undefined inside the service. Listing fails at `user.id`. Reading, updating or deleting an existing task fails at the ownership test. Creating a task cannot fill the non-nullable `userId` column. Each of these surfaces as a 500, and only a call naming a missing id gets its proper 404.
- The body of `PATCH /tasks/:id/status` has a single rule, enum membership. The `TaskStatus` datatype enforces it, so that body is not modelled.
- The ORM relation objects `Task.user` and `User.tasks` are not modelled. `Task.userId` and `TasksService.Owned` stand for them as far as ownership goes.
- `TasksService.Create` returns only the task row. The source builds the row with the caller's full `user` object and returns the saved object. That object still carries `user`, including the stored bcrypt digest in `password`. Nothing on the response path removes that field. The response interceptor, where used, only wraps the value in a `{data, timestamp}` envelope. So the real response to creating a task echoes the caller's digest. The model's result does not include this.
- `AuthService.LoginFailuresIndistinguishable` covers only the returned value, not timing. An unknown username is rejected before `bcrypt.compare` runs, so the source answers it without the hash work. Response time can therefore tell whether a username exists.

=== FILE: auth_dto.dfy ===
/** The body of `POST /auth/register` and `POST /auth/login`. */
module AuthDto {
  import opened Wrappers
  import opened Validation
  import Outcomes

  const MinPasswordLength: nat := 6

  /** The decorators on the two properties. */
  const Rules: Schema := map[
    "username" := [IsString, IsNotEmpty],
    "password" := [IsString, MinLength(MinPasswordLength)]
  ]

  /** A body that passed validation. */
  datatype Credentials = Credentials(username: string, password: string)

  /** An acceptable username: any non-empty string. */
  predicate ValidUsername(v: Value)
  {
    v.JString? && v.s != ""
  }

  /** An acceptable password: a string of at least six characters as
      `TextLength` counts them. */
  predicate ValidPassword(v: Value)
  {
    v.JString? && TextLength(v.s) >= MinPasswordLength
  }

  /** Runs the pipe over a body: either the typed DTO or every violation found. */
  function Validate(body: Body): (r: Result<Credentials, Outcomes.Error>)
    ensures r.Ok? <==>
      ValidUsername(Lookup(body, "username")) && ValidPassword(Lookup(body, "password"))
      && forall p :: p in body ==> p == "username" || p == "password"
    ensures r.Ok? ==> r.value == Credentials(body["username"].s, body["password"].s)
    ensures r.Err? ==> r.error.ValidationError? && r.error.violations != {}
  {
    var vs := Violations(body, Rules);
    var first := Lookup(body, "username");
    var second := Lookup(body, "password");
    if vs == {} then
      assert Passes(body, Rules);
      assert Satisfies(first, IsString) && Satisfies(first, IsNotEmpty);
      assert Satisfies(second, IsString) && Satisfies(second, MinLength(MinPasswordLength));
      Ok(Credentials(body["username"].s, body["password"].s))
    else
      assert !ValidUsername(first) || !ValidPassword(second) || exists p :: p in body && p !in Rules by {
        if forall p :: p in body ==> p in Rules {
          var p, c :| p in Rules && c in Rules[p] && !Satisfies(Lookup(body, p), c);
          assert p == "username" || p == "password";
        }
      }
      Err(Outcomes.ValidationError(vs))
  }

  /** The password bound is inclusive: for a password without presentation
      selectors, six characters pass and five do not. */
  lemma PasswordLengthBoundary(s: string)
    requires forall i :: 0 <= i < |s| ==> !IsPresentationSelector(s[i])
    ensures |s| == MinPasswordLength ==> ValidPassword(JString(s))
    ensures |s| == MinPasswordLength - 1 ==> !ValidPassword(JString(s))
  {
  }
}

=== FILE: auth_service.dfy ===
/** Registration and login on top of the credential store. */
module AuthService {
  import opened Wrappers
  import opened Outcomes
  import opened UserEntity
  import opened UsersService

  /** bcrypt as the service uses it: `hash` to store, `compare` to check. */
  datatype Hasher = Hasher(hash: HashFn, compare: (string, string) -> bool)

  /** The one thing assumed of bcrypt: a password matches its own digest. */
  ghost predicate Sound(h: Hasher)
  {
    forall p :: h.compare(p, h.hash(p))
  }

  /** The JWT payload the service signs. */
  datatype Claim = Claim(username: string)

  /** `jwtService.sign`: the secret and the issue time are folded into the
      function value the caller supplies. */
  type Signer = Claim -> string

  datatype RegisterResponse = RegisterResponse(message: string, username: string)
  datatype LoginResponse = LoginResponse(accessToken: string)

  const UserCreated: string := "User created"

  /** `register`: create the user and report its username; the response type
      has no room for the password or its digest. */
  function Register(us: UserStore, h: Hasher, username: string, password: string): (r: Step<UserStore, RegisterResponse>)
    ensures r.state == CreateUser(us, h.hash, username, password).state
    ensures FindByUsername(us, username).Some? ==> r == Step(us, Err(Conflict(UsernameTaken)))
    ensures FindByUsername(us, username).None? ==>
      r.result == Ok(RegisterResponse(UserCreated, username))
      && r.state.users == us.users[username := User(us.nextId, username, h.hash(password))]
  {
    var created := CreateUser(us, h.hash, username, password);
    match created.result
    case Err(e) => Step(created.state, Err(e))
    case Ok(user) => Step(created.state, Ok(RegisterResponse(UserCreated, user.username)))
  }

  /** `login`: an unknown username and a wrong password fail alike; a match
      yields a token signed over the stored username. */
  function Login(us: UserStore, h: Hasher, sign: Signer, username: string, password: string): (r: Result<LoginResponse, Error>)
    ensures FindByUsername(us, username).None? ==> r == Err(Unauthorized(InvalidCredentials))
    ensures FindByUsername(us, username).Some?
      && !h.compare(password, FindByUsername(us, username).value.password)
      ==> r == Err(Unauthorized(InvalidCredentials))
    ensures r.Ok? <==>
      FindByUsername(us, username).Some? && h.compare(password, FindByUsername(us, username).value.password)
    ensures r.Ok? ==> r.value.accessToken == sign(Claim(FindByUsername(us, username).value.username))
    ensures Valid(us) && r.Ok? ==> r.value.accessToken == sign(Claim(username))
  {
    match FindByUsername(us, username)
    case None => Err(Unauthorized(InvalidCredentials))
    case Some(user) =>
      if !h.compare(password, user.password) then Err(Unauthorized(InvalidCredentials))
      else Ok(LoginResponse(sign(Claim(user.username))))
  }

  /** Every failed login returns the same value, whatever the username and
      password; the returned value does not tell an unknown user from a wrong
      password. */
  lemma LoginFailuresIndistinguishable(us: UserStore, h: Hasher, sign: Signer,
                                       u1: string, p1: string, u2: string, p2: string)
    requires Login(us, h, sign, u1, p1).Err? && Login(us, h, sign, u2, p2).Err?
    ensures Login(us, h, sign, u1, p1) == Login(us, h, sign, u2, p2)
  {
  }

  /** A taken username is refused whatever the password, and nothing is stored. */
  lemma RegisterTakenIsConflict(us: UserStore, h: Hasher, username: string, p1: string, p2: string)
    requires Register(us, h, username, p1).result.Ok?
    ensures var r := Register(us, h, username, p1);
      Register(r.state, h, username, p2) == Step(r.state, Err(Conflict(UsernameTaken)))
  {
  }

  /** Registering and then logging in with the same credentials succeeds, and
      the token is signed over the registered username. */
  lemma RegisterThenLogin(us: UserStore, h: Hasher, sign: Signer, username: string, password: string)
    requires Sound(h)
    requires Register(us, h, username, password).result.Ok?
    ensures Login(Register(us, h, username, password).state, h, sign, username, password)
         == Ok(LoginResponse(sign(Claim(username))))
  {
    var s := Register(us, h, username, password).state;
    assert FindByUsername(s, username) == Some(User(us.nextId, username, h.hash(password)));
  }
}

=== FILE: boundary.dfy ===
/** The global ValidationPipe in front of the services: a body that breaks a
    rule is answered with 400 before any service runs. */
module Boundary {
  import opened Wrappers
  import opened Outcomes
  import opened Validation
  import opened UserEntity
  import opened TaskEntity
  import opened UsersService
  import opened AuthService
  import opened TasksService
  import AuthDto
  import CreateTaskDto

  /** `POST /auth/register`. */
  function RegisterRoute(us: UserStore, h: Hasher, body: Body): (r: Step<UserStore, RegisterResponse>)
    ensures AuthDto.Validate(body).Err? ==>
      r.state == us && r.result.Err? && r.result.error.ValidationError?
    ensures AuthDto.Validate(body).Ok? ==>
      r == Register(us, h, body["username"].s, body["password"].s)
  {
    match AuthDto.Validate(body)
    case Err(e) => Step(us, Err(e))
    case Ok(dto) => Register(us, h, dto.username, dto.password)
  }

  /** `POST /auth/login`. */
  function LoginRoute(us: UserStore, h: Hasher, sign: Signer, body: Body): (r: Result<LoginResponse, Error>)
    ensures AuthDto.Validate(body).Err? ==> r.Err? && r.error.ValidationError?
    ensures AuthDto.Validate(body).Ok? ==>
      r == Login(us, h, sign, body["username"].s, body["password"].s)
  {
    match AuthDto.Validate(body)
    case Err(e) => Err(e)
    case Ok(dto) => Login(us, h, sign, dto.username, dto.password)
  }

  /** The pipe in front of the task service's `create`, called as the service
      is meant to be called, with the caller's user. The tasks controller as
      written passes no user, so this is not a model of that controller. */
  function CreateTaskRoute(ts: TaskStore, user: User, body: Body): (r: Step<TaskStore, Task>)
    ensures CreateTaskDto.Validate(body).Err? ==>
      r.state == ts && r.result.Err? && r.result.error.ValidationError?
    ensures CreateTaskDto.Validate(body).Ok? ==>
      r == Create(ts, CreateTaskDto.CreateTask(body["title"].s, body["description"].s), user)
  {
    match CreateTaskDto.Validate(body)
    case Err(e) => Step(ts, Err(e))
    case Ok(dto) => Create(ts, dto, user)
  }
}

=== FILE: create_task_dto.dfy ===
/** The body of `POST /tasks`. */
module CreateTaskDto {
  import opened Wrappers
  import opened Validation
  import Outcomes

  const MaxTitleLength: nat := 100

  /** The decorators on the two properties. */
  const Rules: Schema := map[
    "title" := [IsString, IsNotEmpty, MaxLength(MaxTitleLength)],
    "description" := [IsString, IsNotEmpty]
  ]

  /** A body that passed validation. */
  datatype CreateTask = CreateTask(title: string, description: string)

  /** An acceptable title: a non-empty string of at most 100 characters as
      `TextLength` counts them. */
  predicate ValidTitle(v: Value)
  {
    v.JString? && v.s != "" && TextLength(v.s) <= MaxTitleLength
  }

  /** An acceptable description: a non-empty string, of any length. */
  predicate ValidDescription(v: Value)
  {
    v.JString? && v.s != ""
  }

  /** Runs the pipe over a body: either the typed DTO or every violation found. */
  function Validate(body: Body): (r: Result<CreateTask, Outcomes.Error>)
    ensures r.Ok? <==>
      ValidTitle(Lookup(body, "title")) && ValidDescription(Lookup(body, "description"))
      && forall p :: p in body ==> p == "title" || p == "description"
    ensures r.Ok? ==> r.value == CreateTask(body["title"].s, body["description"].s)
    ensures r.Err? ==> r.error.ValidationError? && r.error.violations != {}
  {
    var vs := Violations(body, Rules);
    var first := Lookup(body, "title");
    var second := Lookup(body, "description");
    if vs == {} then
      assert Passes(body, Rules);
      assert Satisfies(first, IsString) && Satisfies(first, IsNotEmpty)
          && Satisfies(first, MaxLength(MaxTitleLength));
      assert Satisfies(second, IsString) && Satisfies(second, IsNotEmpty);
      Ok(CreateTask(body["title"].s, body["description"].s))
    else
      assert !ValidTitle(first) || !ValidDescription(second) || exists p :: p in body && p !in Rules by {
        if forall p :: p in body ==> p in Rules {
          var p, c :| p in Rules && c in Rules[p] && !Satisfies(Lookup(body, p), c);
          assert p == "title" || p == "description";
        }
      }
      Err(Outcomes.ValidationError(vs))
  }

  /** The length limit is inclusive: for a title without presentation selectors,
      100 characters pass and 101 do not. */
  lemma TitleLengthBoundary(s: string)
    requires forall i :: 0 <= i < |s| ==> !IsPresentationSelector(s[i])
    ensures |s| == MaxTitleLength ==> ValidTitle(JString(s))
    ensures |s| == MaxTitleLength + 1 ==> !ValidTitle(JString(s))
  {
  }

  /** A trailing emoji-presentation selector does not count against the limit. */
  lemma TitleSelectorNotCounted(s: string)
    requires s != ""
    ensures ValidTitle(JString(s + ['\U{FE0F}'])) <==> ValidTitle(JString(s))
  {
    TextLengthAppend(s, '\U{FE0F}');
  }
}

=== FILE: ids.dfy ===
/** Primary keys of both tables. */
module Ids {

  /** The database generates a uuid for every row (`@PrimaryGeneratedColumn('uuid')`).
      Its textual form plays no part in any rule, so a key is an opaque natural
      number handed out by a per-table counter; distinct rows get distinct keys. */
  type Uuid = nat
}

=== FILE: jwt_strategy.dfy ===
/** The passport strategy: built once at startup from the configured secret,
    then asked to turn each verified token payload into a stored user. */
module JwtStrategy {
  import opened Wrappers
  import opened Outcomes
  import opened UserEntity
  import opened UsersService
  import opened AuthService

  /** The configured strategy; `secretOrKey` is what signatures are checked against. */
  datatype Strategy = Strategy(secretOrKey: string)

  const MissingSecret: string := "JWT_SECRET is missing in config"

  /** The constructor: an absent or empty `JWT_SECRET` aborts startup. */
  function NewStrategy(jwtSecret: Option<string>): (r: Result<Strategy, string>)
    ensures r.Ok? <==> jwtSecret.Some? && jwtSecret.value != ""
    ensures r.Ok? ==> r.value.secretOrKey == jwtSecret.value
    ensures r.Err? ==> r.error == MissingSecret
  {
    match jwtSecret
    case Some(secret) =>
      if secret == "" then Err(MissingSecret) else Ok(Strategy(secret))
    case None => Err(MissingSecret)
  }

  /** An absent and an empty secret abort startup alike; any other secret
      yields a strategy that keeps exactly that secret. */
  lemma NewStrategyBlankSecrets(secret: string)
    ensures NewStrategy(None) == NewStrategy(Some("")) == Err(MissingSecret)
    ensures secret != "" ==> NewStrategy(Some(secret)) == Ok(Strategy(secret))
  {
  }

  /** `validate`: the user named by the payload, or 401 when there is none. */
  function Validate(us: UserStore, payload: Claim): (r: Result<User, Error>)
    ensures r.Ok? <==> FindByUsername(us, payload.username).Some?
    ensures r.Err? ==> r.error == Unauthorized(DefaultUnauthorized)
    ensures r.Ok? ==> r.value in us.users.Values
    ensures Valid(us) && r.Ok? ==> r.value.username == payload.username
  {
    match FindByUsername(us, payload.username)
    case None => Err(Unauthorized(DefaultUnauthorized))
    case Some(user) => Ok(user)
  }

  /** The claim a successful login signs resolves back to the user who logged in. */
  lemma LoginThenValidate(us: UserStore, h: Hasher, sign: Signer, username: string, password: string)
    requires Valid(us)
    requires Login(us, h, sign, username, password).Ok?
    ensures Validate(us, Claim(username)) == Ok(FindByUsername(us, username).value)
    ensures Login(us, h, sign, username, password).value.accessToken
         == sign(Claim(Validate(us, Claim(username)).value.username))
  {
  }
}

=== FILE: outcomes.dfy ===
/** The error kinds the services throw, and the shape of a state-changing call. */
module Outcomes {
  import opened Ids
  import opened Wrappers
  import Validation

  /** The HTTP exceptions raised by the core, with the message each one carries. */
  datatype Error =
    | NotFound(taskId: Uuid)          // `Task ${id} not found`
    | Forbidden(message: string)
    | Conflict(message: string)
    | Unauthorized(message: string)
    | ValidationError(violations: set<Validation.Violation>)

  const TaskNotYours: string := "This task is not yours"
  const UsernameTaken: string := "Username already exists"
  const InvalidCredentials: string := "Invalid credentials"
  /** The message of an `UnauthorizedException` built without arguments. */
  const DefaultUnauthorized: string := "Unauthorized"

  /** The store after a call, and what the call resolved to or threw. */
  datatype Step<S, V> = Step(state: S, result: Result<V, Error>)
}

=== FILE: scenario.dfy ===
/** The end-to-end walkthrough of the API: two users, one task. */
module Scenario {
  import opened Wrappers
  import opened Outcomes
  import opened TaskEntity
  import opened UserEntity
  import opened UsersService
  import opened AuthService
  import opened JwtStrategy
  import opened TasksService
  import CreateTaskDto

  /** Starting from empty tables: alice registers and logs in, creates
      "Buy milk" (OPEN), marks it DONE; bob registers and logs in, and reading
      alice's task as bob is refused with 403. Holds for any bcrypt and any
      signing key. */
  lemma Walkthrough(h: Hasher, sign: Signer)
    requires Sound(h)
    ensures
      var reg1 := Register(EmptyUserStore, h, "alice", "secret123");
      var login1 := Login(reg1.state, h, sign, "alice", "secret123");
      var alice := Validate(reg1.state, Claim("alice"));
      var reg2 := Register(reg1.state, h, "bob", "secret123");
      var login2 := Login(reg2.state, h, sign, "bob", "secret123");
      var bob := Validate(reg2.state, Claim("bob"));
      && reg1.result == Ok(RegisterResponse(UserCreated, "alice"))
      && login1 == Ok(LoginResponse(sign(Claim("alice"))))
      && alice.Ok?
      && var created := Create(EmptyTaskStore, CreateTaskDto.CreateTask("Buy milk", "2%"), alice.value);
         var task := created.result.value;
         var updated := UpdateStatus(created.state, task.id, Done, alice.value);
         && task.status == Open
         && updated.result.Ok? && updated.result.value.status == Done
         && reg2.result == Ok(RegisterResponse(UserCreated, "bob"))
         && login2 == Ok(LoginResponse(sign(Claim("bob"))))
         && bob.Ok?
         && GetById(updated.state, task.id, bob.value) == Err(Forbidden(TaskNotYours))
  {
    var reg1 := Register(EmptyUserStore, h, "alice", "secret123");
    RegisterThenLogin(EmptyUserStore, h, sign, "alice", "secret123");
    var alice := Validate(reg1.state, Claim("alice"));
    assert alice == Ok(User(0, "alice", h.hash("secret123")));
    var reg2 := Register(reg1.state, h, "bob", "secret123");
    assert FindByUsername(reg1.state, "bob").None?;
    RegisterThenLogin(reg1.state, h, sign, "bob", "secret123");
    var bob := Validate(reg2.state, Claim("bob"));
    assert bob == Ok(User(1, "bob", h.hash("secret123")));
  }
}

=== FILE: task_entity.dfy ===
/** The `Task` table and its status enum. */
module TaskEntity {
  import opened Ids
  import opened Wrappers

  /** The three states of a task; the column is a Postgres enum of their names. */
  datatype TaskStatus = Open | InProgress | Done

  /** Every status, for stating that there are exactly three. */
  const AllStatuses: set<TaskStatus> := {Open, InProgress, Done}

  /** The column default; `create` sets OPEN explicitly and does not rely on it. */
  const DefaultStatus: TaskStatus := Open

  /** The string stored for each status. */
  function StatusName(s: TaskStatus): string
  {
    match s
    case Open => "OPEN"
    case InProgress => "IN_PROGRESS"
    case Done => "DONE"
  }

  /** Reads a stored or submitted string back as a status, if it names one. */
  function ParseStatus(x: string): Option<TaskStatus>
  {
    if x == "OPEN" then Some(Open)
    else if x == "IN_PROGRESS" then Some(InProgress)
    else if x == "DONE" then Some(Done)
    else None
  }

  /** A row of the task table. `userId` is the single owner; the lazy `user`
      relation holds nothing beyond it. */
  datatype Task = Task(id: Uuid, title: string, description: string, status: TaskStatus, userId: Uuid)

  lemma StatusIsOneOfThree(s: TaskStatus)
    ensures s in AllStatuses
    ensures |AllStatuses| == 3
  {
  }

  /** Parsing a status's name gives the status back. */
  lemma ParseStatusName(s: TaskStatus)
    ensures ParseStatus(StatusName(s)) == Some(s)
  {
  }

  /** Whatever parses was the name of what it parsed to: the two are inverse. */
  lemma StatusNameOfParse(x: string)
    ensures ParseStatus(x).Some? ==> StatusName(ParseStatus(x).value) == x
    ensures ParseStatus(x).None? <==> x != "OPEN" && x != "IN_PROGRESS" && x != "DONE"
  {
  }

  /** Distinct statuses are stored as distinct strings. */
  lemma StatusNameInjective(s: TaskStatus, t: TaskStatus)
    ensures StatusName(s) == StatusName(t) ==> s == t
  {
    ParseStatusName(s);
    ParseStatusName(t);
  }
}

=== FILE: task_properties.dfy ===
/** What the task operations promise together: round trips between them, and
    that no sequence of calls by one user reaches another user's rows. */
module TaskProperties {
  import opened Ids
  import opened Wrappers
  import opened Outcomes
  import opened TaskEntity
  import opened UserEntity
  import opened CreateTaskDto
  import opened TasksService

  /** One call on the task service, made for a given caller as the service is
      meant to be called, that reads a single row or changes the table. */
  datatype TaskCall =
    | GetByIdCall(id: Uuid)
    | CreateCall(dto: CreateTask)
    | UpdateStatusCall(id: Uuid, status: TaskStatus)
    | DeleteCall(id: Uuid)

  /** The table after a call and the row it hands back, if any. */
  function Apply(ts: TaskStore, user: User, call: TaskCall): Step<TaskStore, Option<Task>>
  {
    match call
    case GetByIdCall(id) =>
      (match GetById(ts, id, user)
       case Ok(t) => Step(ts, Ok(Some(t)))
       case Err(e) => Step(ts, Err(e)))
    case CreateCall(dto) =>
      var r := Create(ts, dto, user);
      Step(r.state, Ok(Some(r.result.value)))
    case UpdateStatusCall(id, status) =>
      var r := UpdateStatus(ts, id, status, user);
      (match r.result
       case Ok(t) => Step(r.state, Ok(Some(t)))
       case Err(e) => Step(r.state, Err(e)))
    case DeleteCall(id) =>
      var r := Delete(ts, id, user);
      (match r.result
       case Ok(_) => Step(r.state, Ok(None))
       case Err(e) => Step(r.state, Err(e)))
  }

  /** The table after a session of calls by one user; failed calls change nothing. */
  function Run(ts: TaskStore, user: User, calls: seq<TaskCall>): TaskStore
    decreases |calls|
  {
    if calls == [] then ts else Run(Apply(ts, user, calls[0]).state, user, calls[1..])
  }

  /** A task just created is returned, unchanged and OPEN, to its creator. */
  lemma CreateThenGet(ts: TaskStore, dto: CreateTask, user: User)
    requires Valid(ts)
    ensures var r := Create(ts, dto, user);
      GetById(r.state, r.result.value.id, user) == Ok(Task(r.result.value.id, dto.title, dto.description, Open, user.id))
    ensures var r := Create(ts, dto, user);
      Owned(r.state, user) == Owned(ts, user) + {r.result.value}
  {
    var r := Create(ts, dto, user);
    var t := r.result.value;
    forall x | x in Owned(r.state, user) ensures x in Owned(ts, user) + {t} {
      var k :| k in r.state.tasks && r.state.tasks[k].userId == user.id && r.state.tasks[k] == x;
      if k != t.id {
        assert x == ts.tasks[k];
      }
    }
    forall x | x in Owned(ts, user) ensures x in Owned(r.state, user) {
      var k :| k in ts.tasks && ts.tasks[k].userId == user.id && ts.tasks[k] == x;
      assert k != t.id;
      assert r.state.tasks[k] == x;
    }
  }

  /** After a status update, reading the row back shows exactly the new status. */
  lemma UpdateThenGet(ts: TaskStore, id: Uuid, status: TaskStatus, user: User)
    requires UpdateStatus(ts, id, status, user).result.Ok?
    ensures var r := UpdateStatus(ts, id, status, user);
      GetById(r.state, id, user) == Ok(ts.tasks[id].(status := status))
      && GetById(r.state, id, user).value.status == status
  {
  }

  /** After a delete, the row is gone for every caller. */
  lemma DeleteThenGet(ts: TaskStore, id: Uuid, user: User, anyone: User)
    requires Delete(ts, id, user).result.Ok?
    ensures GetById(Delete(ts, id, user).state, id, anyone) == Err(NotFound(id))
  {
  }

  /** A row that does not exist is reported missing to everyone, by every call
      that names it, and nothing changes. */
  lemma MissingIsNotFound(ts: TaskStore, id: Uuid, status: TaskStatus, user: User)
    requires id !in ts.tasks
    ensures GetById(ts, id, user) == Err(NotFound(id))
    ensures UpdateStatus(ts, id, status, user) == Step(ts, Err(NotFound(id)))
    ensures Delete(ts, id, user) == Step(ts, Err(NotFound(id)))
  {
  }

  /** Somebody else's row is refused with 403 by every call that names it, and
      nothing changes. */
  lemma ForeignIsForbidden(ts: TaskStore, id: Uuid, status: TaskStatus, user: User)
    requires id in ts.tasks && ts.tasks[id].userId != user.id
    ensures GetById(ts, id, user) == Err(Forbidden(TaskNotYours))
    ensures UpdateStatus(ts, id, status, user) == Step(ts, Err(Forbidden(TaskNotYours)))
    ensures Delete(ts, id, user) == Step(ts, Err(Forbidden(TaskNotYours)))
  {
  }

  /** In a valid table, one call by `user` hands back only `user`'s rows, keeps
      the table valid, and leaves every other user's rows exactly as they were. */
  lemma ApplyIsolation(ts: TaskStore, user: User, call: TaskCall, other: User)
    requires Valid(ts)
    requires other.id != user.id
    ensures var r := Apply(ts, user, call);
      && (r.result.Ok? && r.result.value.Some? ==> r.result.value.value.userId == user.id)
      && Valid(r.state)
      && Owned(r.state, other) == Owned(ts, other)
  {
    var r := Apply(ts, user, call);
    var s := r.state;
    // Every key holds the same row before and after, unless that row is `user`'s.
    assert forall k :: k in ts.tasks && ts.tasks[k].userId != user.id ==> k in s.tasks && s.tasks[k] == ts.tasks[k];
    assert forall k :: k in s.tasks && s.tasks[k].userId != user.id ==> k in ts.tasks && ts.tasks[k] == s.tasks[k] by {
      forall k | k in s.tasks && s.tasks[k].userId != user.id
        ensures k in ts.tasks && ts.tasks[k] == s.tasks[k]
      {
        match call
        case CreateCall(dto) =>
          assert k != Create(ts, dto, user).result.value.id;
        case UpdateStatusCall(id, status) =>
          if UpdateStatus(ts, id, status, user).result.Ok? {
            assert k != id;
          }
        case _ =>
      }
    }
    forall x | x in Owned(s, other) ensures x in Owned(ts, other) {
      var k :| k in s.tasks && s.tasks[k].userId == other.id && s.tasks[k] == x;
      assert ts.tasks[k] == x;
    }
    forall x | x in Owned(ts, other) ensures x in Owned(s, other) {
      var k :| k in ts.tasks && ts.tasks[k].userId == other.id && ts.tasks[k] == x;
      assert s.tasks[k] == x;
    }
  }

  /** However long a session of calls by `user`, every other user's rows come
      out exactly as they went in, and the table stays valid. */
  lemma {:induction false} RunIsolation(ts: TaskStore, user: User, calls: seq<TaskCall>, other: User)
    requires Valid(ts)
    requires other.id != user.id
    ensures Owned(Run(ts, user, calls), other) == Owned(ts, other)
    ensures Valid(Run(ts, user, calls))
    decreases |calls|
  {
    if calls != [] {
      ApplyIsolation(ts, user, calls[0], other);
      RunIsolation(Apply(ts, user, calls[0]).state, user, calls[1..], other);
    }
  }
}

=== FILE: tasks_service.dfy ===
/** The ownership-scoped task operations, with the caller passed in as the
    service is meant to be called; each may only see or touch that caller's
    rows. The tasks controller as written passes no caller. */
module TasksService {
  import opened Ids
  import opened Wrappers
  import opened Outcomes
  import opened TaskEntity
  import opened UserEntity
  import opened CreateTaskDto

  /** The task table: rows by primary key, and the next key the generator hands out. */
  datatype TaskStore = TaskStore(tasks: map<Uuid, Task>, nextId: Uuid)

  const EmptyTaskStore: TaskStore := TaskStore(map[], 0)

  /** Every row is stored under its own id, and that id was handed out earlier. */
  ghost predicate Valid(ts: TaskStore)
  {
    forall k :: k in ts.tasks ==> ts.tasks[k].id == k && k < ts.nextId
  }

  /** The rows of one user: the `tasks` relation of `User`. */
  function Owned(ts: TaskStore, user: User): set<Task>
  {
    set k | k in ts.tasks && ts.tasks[k].userId == user.id :: ts.tasks[k]
  }

  /** `getAll`: every row whose owner is the caller, in no particular order. */
  method GetAll(ts: TaskStore, user: User) returns (r: seq<Task>)
    ensures forall t :: t in r <==> t in ts.tasks.Values && t.userId == user.id
    ensures (set t | t in r) == Owned(ts, user)
    ensures Valid(ts) ==> forall i, j :: 0 <= i < j < |r| ==> r[i].id != r[j].id
  {
    r := [];
    var todo := ts.tasks.Keys;
    while todo != {}
      invariant todo <= ts.tasks.Keys
      invariant forall i :: 0 <= i < |r| ==> r[i] in ts.tasks.Values && r[i].userId == user.id
      invariant forall k :: k in ts.tasks && k !in todo && ts.tasks[k].userId == user.id ==> ts.tasks[k] in r
      invariant Valid(ts) ==> forall i :: 0 <= i < |r| ==> r[i].id in ts.tasks && r[i].id !in todo
      invariant Valid(ts) ==> forall i, j :: 0 <= i < j < |r| ==> r[i].id != r[j].id
      decreases todo
    {
      var k :| k in todo;
      var t := ts.tasks[k];
      if t.userId == user.id {
        r := r + [t];
      }
      todo := todo - {k};
    }
  }

  /** `getById`: existence is checked before ownership, so a missing row and
      somebody else's row are told apart. */
  function GetById(ts: TaskStore, id: Uuid, user: User): (r: Result<Task, Error>)
    ensures id !in ts.tasks ==> r == Err(NotFound(id))
    ensures id in ts.tasks && ts.tasks[id].userId != user.id ==> r == Err(Forbidden(TaskNotYours))
    ensures r.Ok? <==> id in ts.tasks && ts.tasks[id].userId == user.id
    ensures r.Ok? ==> r.value == ts.tasks[id] && r.value in Owned(ts, user)
  {
    if id !in ts.tasks then Err(NotFound(id))
    else
      var task := ts.tasks[id];
      if task.userId != user.id then Err(Forbidden(TaskNotYours))
      else Ok(task)
  }

  /** `create`: a new OPEN row owned by the caller, under a fresh key. */
  function Create(ts: TaskStore, dto: CreateTask, user: User): (r: Step<TaskStore, Task>)
    ensures r.result.Ok?
    ensures var t := r.result.value;
      && t.status == Open
      && t.userId == user.id
      && t.title == dto.title && t.description == dto.description
      && r.state.tasks == ts.tasks[t.id := t]
    ensures Valid(ts) ==> Valid(r.state) && r.result.value.id !in ts.tasks
  {
    var t := Task(ts.nextId, dto.title, dto.description, Open, user.id);
    Step(TaskStore(ts.tasks[t.id := t], ts.nextId + 1), Ok(t))
  }

  /** `updateStatus`: `getById`, then overwrite the status with any value
      whatever it was before, and save. */
  function UpdateStatus(ts: TaskStore, id: Uuid, status: TaskStatus, user: User): (r: Step<TaskStore, Task>)
    ensures GetById(ts, id, user).Err? ==> r == Step(ts, Err(GetById(ts, id, user).error))
    ensures GetById(ts, id, user).Ok? ==>
      && r.result == Ok(ts.tasks[id].(status := status))
      && r.state == ts.(tasks := ts.tasks[id := ts.tasks[id].(status := status)])
    ensures Valid(ts) ==> Valid(r.state)
  {
    match GetById(ts, id, user)
    case Err(e) => Step(ts, Err(e))
    case Ok(task) =>
      var saved := task.(status := status);
      Step(ts.(tasks := ts.tasks[id := saved]), Ok(saved))
  }

  /** `delete`: `getById`, then remove that one row. */
  function Delete(ts: TaskStore, id: Uuid, user: User): (r: Step<TaskStore, ()>)
    ensures GetById(ts, id, user).Err? ==> r == Step(ts, Err(GetById(ts, id, user).error))
    ensures GetById(ts, id, user).Ok? ==>
      && r.result == Ok(())
      && r.state.tasks.Keys == ts.tasks.Keys - {id}
      && (forall k :: k in r.state.tasks ==> r.state.tasks[k] == ts.tasks[k])
      && r.state.nextId == ts.nextId
    ensures Valid(ts) ==> Valid(r.state)
  {
    match GetById(ts, id, user)
    case Err(e) => Step(ts, Err(e))
    case Ok(_) => Step(ts.(tasks := ts.tasks - {id}), Ok(()))
  }
}

=== FILE: user_entity.dfy ===
/** The `User` table. */
module UserEntity {
  import opened Ids

  /** A row of the user table. `password` holds the bcrypt digest of the
      password chosen at registration, never the password itself. The lazy
      `tasks` relation is not a column; it is `TasksService.Owned`. */
  datatype User = User(id: Uuid, username: string, password: string)
}

=== FILE: users_service.dfy ===
/** The credential store: registration-time insert and lookup by username. */
module UsersService {
  import opened Ids
  import opened Wrappers
  import opened Outcomes
  import opened UserEntity

  /** The user table: rows by username (a unique column), and the next id the
      generator hands out. */
  datatype UserStore = UserStore(users: map<string, User>, nextId: Uuid)

  const EmptyUserStore: UserStore := UserStore(map[], 0)

  /** Every row is filed under its own username, its id was handed out earlier,
      and no two rows share an id. */
  ghost predicate Valid(us: UserStore)
  {
    && (forall name :: name in us.users ==>
          us.users[name].username == name && us.users[name].id < us.nextId)
    && (forall a, b :: a in us.users && b in us.users && a != b ==> us.users[a].id != us.users[b].id)
  }

  /** The one-way function bcrypt applies to a password. Its salt and cost
      factor are folded into the function value the caller supplies. */
  type HashFn = string -> string

  /** `findByUsername`: the row whose username column equals `username`, or null. */
  function FindByUsername(us: UserStore, username: string): (r: Option<User>)
    ensures Valid(us) ==> (r.Some? <==> exists u :: u in us.users.Values && u.username == username)
    ensures r.Some? ==> r.value in us.users.Values
    ensures Valid(us) && r.Some? ==> r.value.username == username
  {
    if username in us.users then Some(us.users[username]) else None
  }

  /** `createUser`: refuse a taken username, otherwise store a new row holding
      the digest of the password. */
  function CreateUser(us: UserStore, hash: HashFn, username: string, password: string): (r: Step<UserStore, User>)
    ensures FindByUsername(us, username).Some? ==> r == Step(us, Err(Conflict(UsernameTaken)))
    ensures FindByUsername(us, username).None? ==>
      && r.result.Ok?
      && r.result.value.username == username
      && r.result.value.password == hash(password)
      && r.state.users == us.users[username := r.result.value]
    ensures Valid(us) ==> Valid(r.state)
    ensures Valid(us) && r.result.Ok? ==> forall u :: u in us.users.Values ==> u.id != r.result.value.id
  {
    match FindByUsername(us, username)
    case Some(_) => Step(us, Err(Conflict(UsernameTaken)))
    case None =>
      var user := User(us.nextId, username, hash(password));
      Step(UserStore(us.users[username := user], us.nextId + 1), Ok(user))
  }

  /** In a valid store the username column is unique. */
  lemma UsernamesUnique(us: UserStore, u: User, v: User)
    requires Valid(us)
    requires u in us.users.Values && v in us.users.Values
    ensures u.username == v.username ==> u == v
  {
  }

  /** A user just created is what a lookup of its username returns. */
  lemma CreateThenFind(us: UserStore, hash: HashFn, username: string, password: string)
    requires CreateUser(us, hash, username, password).result.Ok?
    ensures var r := CreateUser(us, hash, username, password);
      FindByUsername(r.state, username) == Some(r.result.value)
  {
  }

  /** Creating a user leaves every other row as it was, and a failed attempt
      leaves the whole table as it was. */
  lemma CreateUserFrame(us: UserStore, hash: HashFn, username: string, password: string, other: string)
    requires other != username
    ensures var r := CreateUser(us, hash, username, password);
      FindByUsername(r.state, other) == FindByUsername(us, other)
      && (r.result.Err? ==> r.state == us)
  {
  }
}

=== FILE: validation.dfy ===
/** The class-validator decorators used by the request bodies, and the global
    ValidationPipe (whitelist + forbidNonWhitelisted) that applies them. */
module Validation {

  /** A property of a JSON request body as the validators see it. A missing
      property and an explicit `null` are treated alike by every rule used here. */
  datatype Value = JString(s: string) | JNull | JOther

  /** The decorators that appear on the request bodies. */
  datatype Constraint = IsString | IsNotEmpty | MaxLength(max: nat) | MinLength(min: nat)

  /** One entry of the 400 response: a failed rule, or a property the body
      declares that the DTO does not. */
  datatype Violation =
    | Failed(property: string, constraint: Constraint)
    | NonWhitelisted(property: string)

  /** A DTO class: each declared property with the decorators on it. */
  type Schema = map<string, seq<Constraint>>

  /** A request body: property names to values. */
  type Body = map<string, Value>

  /** The two variation selectors (text and emoji presentation) that the
      length check leaves out of a string's length. */
  predicate IsPresentationSelector(ch: char)
  {
    ch == '\U{FE0E}' || ch == '\U{FE0F}'
  }

  /** The length `MaxLength` and `MinLength` measure (validator.js `isLength`):
      one per character, a character outside the Basic Multilingual Plane
      counting once, the two presentation selectors not at all. */
  function TextLength(s: string): (n: nat)
    ensures n <= |s|
    ensures n == |s| <==> forall i :: 0 <= i < |s| ==> !IsPresentationSelector(s[i])
  {
    if s == [] then 0
    else
      var init := s[..|s| - 1];
      assert forall i :: 0 <= i < |init| ==> init[i] == s[i];
      TextLength(init) + (if IsPresentationSelector(s[|s| - 1]) then 0 else 1)
  }

  /** Appending a character adds one to the length, unless it is a presentation selector. */
  lemma TextLengthAppend(s: string, ch: char)
    ensures TextLength(s + [ch]) == TextLength(s) + (if IsPresentationSelector(ch) then 0 else 1)
  {
    assert (s + [ch])[..|s|] == s;
  }

  /** What one decorator accepts. `IsNotEmpty` only rejects '', null and undefined,
      so it lets a non-string through; the length rules reject every non-string. */
  predicate Satisfies(v: Value, c: Constraint)
  {
    match c
    case IsString => v.JString?
    case IsNotEmpty => v != JNull && v != JString("")
    case MaxLength(n) => v.JString? && TextLength(v.s) <= n
    case MinLength(n) => v.JString? && TextLength(v.s) >= n
  }

  /** The value of a property; an absent property reads as null. */
  function Lookup(body: Body, property: string): Value
  {
    if property in body then body[property] else JNull
  }

  /** A body the pipe lets through: it declares nothing the DTO does not, and
      every declared property meets every decorator on it. */
  predicate Passes(body: Body, schema: Schema)
  {
    && (forall p :: p in body ==> p in schema)
    && (forall p, c :: p in schema && c in schema[p] ==> Satisfies(Lookup(body, p), c))
  }

  /** Every rule the body breaks, and every property it carries that the schema
      does not declare. */
  function Violations(body: Body, schema: Schema): (vs: set<Violation>)
    ensures vs == {} <==> Passes(body, schema)
    ensures forall v :: v in vs ==> v.property in schema || v.property in body
  {
    var failed := set p, c | p in schema && c in schema[p] && !Satisfies(Lookup(body, p), c) :: Failed(p, c);
    var extra := set p | p in body && p !in schema :: NonWhitelisted(p);
    assert failed == {} <==> forall p, c :: p in schema && c in schema[p] ==> Satisfies(Lookup(body, p), c) by {
      if !(forall p, c :: p in schema && c in schema[p] ==> Satisfies(Lookup(body, p), c)) {
        var p, c :| p in schema && c in schema[p] && !Satisfies(Lookup(body, p), c);
        assert Failed(p, c) in failed;
      }
    }
    assert extra == {} <==> forall p :: p in body ==> p in schema by {
      if !(forall p :: p in body ==> p in schema) {
        var p :| p in body && p !in schema;
        assert NonWhitelisted(p) in extra;
      }
    }
    failed + extra
  }
}

=== FILE: wrappers.dfy ===
/** Option and Result, the two failure-carrying shapes every service operation returns. */
module Wrappers {

  /** A value that may be missing: TypeORM's `findOne` gives an entity or null. */
  datatype Option<+T> = None | Some(value: T)

  /** Either a value or an error: the service methods either resolve or throw. */
  datatype Result<+T, +E> = Ok(value: T) | Err(error: E)
}
